=== FILE: README.md ===
# Dice roller: roll ledger and statistics engine

This project models the logic of a desktop dice roller. The view code around it is not modelled.

- A roll of one kind of die makes one record. The record holds every die value, the modifier, and their total.
- Each record is appended to a JSON file for the current day.
- For a chosen span of days, the app reads each day's file back.
- For each die it counts how often each face came up. These counts become one bar chart per die.
- A rolled value gets a colour from its third of the face range. A natural 20 on the d20 gets a rainbow highlight.

The model is written as pure functions over immutable datatypes, plus methods for two kinds of step. The three loops (the roll, the range query and the histogram) are methods with invariants. The Roll-button compositions are methods too.

| file | module | models |
|---|---|---|
| `wrappers.dfy` | `Wrappers` | `Option` / `Result` |
| `catalog.dfy` | `Catalog` | the `Dice` type, the catalog, lookup by name, the statistics panel list |
| `rolls.dfy` | `Rolls` | the `RollResult` record, one random draw, `rollDice`, the count and modifier fields |
| `tiers.dfy` | `Tiers` | `getDiceRangeColor` and the individual / summed result layouts |
| `naming.dfy` | `Naming` | day-file names `dice_roll_log_<YYYY-MM-DD>.json` and their parse round trip |
| `ledger.dfy` | `Ledger` | the day store, start-up creation of today's file, `postRolls`, `fetchRolls` |
| `roller.dfy` | `Roller` | the Roll button: roll, append, then show |
| `histogram.dfy` | `Histogram` | `filterDiceRolls` and the "Total Rolls" sum |

How the model is built:

- **Days are integers.** Consecutive days differ by one.
- **The ledger directory is a map from day to file content.** A day with no key has no readable file. `Malformed` is a file that can be read but whose text `JSON.parse` rejects.
- **A draw of `Math.random()` is an exact fraction `num/den` in [0, 1).** A die value is `floor(num * n / den) + 1`.
- **The colour thresholds `n/3` and `n/3 + n/3` are computed on exact rationals (`real`).** The colour function's contract restates them as integer cross-multiplication (`3v <= n`, `3v <= 2n`).

Behaviour of the code that the model keeps:

- **File names.** Day files are named `dice_roll_log_<YYYY-MM-DD>.json`.
- **Invalid dates.** A date that does not parse is still a truthy `Date` object, so the range query takes its main branch. The day difference is NaN, and the loop reads no day.
- **The highlighted die.** The rainbow highlight is keyed on the name `"d20"`, so `d100` rolling 100 is green.
- **Unreadable or malformed file on append.** An append fails if today's file is unreadable or `JSON.parse` rejects it. Only the range query treats such a file as empty.
- **Malformed file at start-up.** Start-up leaves a readable but malformed file for today in place.
- **Append before display.** The Roll button waits for the append before it shows the result. When the append fails, the roll is neither logged nor shown.
- **Dice count below 1.** A parsed count below 1 becomes 1. An empty field (NaN) is not caught; see Findings.

## Model

| member | source | states |
|---|---|---|
| `Catalog.FindDice` | src/Components/DiceRoller.tsx:197-200 | finds a die exactly when some catalog entry has that name, and returns the first entry with that name |
| `Catalog.FindDiceOwnName` | src/Components/DiceRoller.tsx:197 | with unique names, looking up an entry's own name returns that entry |
| `Catalog.CatalogWellFormed` | src/App.tsx:35-45 | catalog names are unique and every die has at least one face |
| `Catalog.CriticalDieIsDefault` | src/Components/DiceRoller.tsx:28 | the only entry named "d20" is the 20-faced individual default die, and a lookup of "d20" finds it |
| `Catalog.HistoryPanels` | src/App.tsx:371-372 | a die gets a statistics panel exactly when it is in the catalog and is not "d2(separate)" |
| `Catalog.PanelList` | src/App.tsx:371-385 | the panels are the catalog in order with the second entry removed |
| `Catalog.PanelsShowEachFaceCountOnce` | src/App.tsx:371-378 | no two panels share a face count, and every face count of the catalog has a panel |
| `Rolls.Draw` | src/Components/DiceRoller.tsx:62 | `floor(r*n + 1)` for `r` in [0,1) lies in [1, n] for every die with at least one face |
| `Rolls.RollDice` | src/Components/DiceRoller.tsx:57-76 | the roll has one value per requested die (none for a negative count, and none for NaN, since `i < NaN` is false), each a draw in [1, faces]; the total is their sum plus the modifier, so a NaN count logs the modifier alone; die, count, modifier and date are copied unchanged |
| `Rolls.SumBounds` | src/Components/DiceRoller.tsx:61-65 | n values in [1, faces] sum to between n and n*faces |
| `Rolls.TotalRange` | src/Components/DiceRoller.tsx:67 | a total lies between count+modifier and count*faces+modifier; it is not clamped, so a large negative modifier makes it negative |
| `Rolls.Modifier` | src/Components/DiceRoller.tsx:230 | a parsed modifier is kept; an unparsable one becomes 0 |
| `Rolls.DiceCountAsWritten` | src/Components/DiceRoller.tsx:218 | a parsed count of at least 1 is kept and one below 1 becomes exactly 1; NaN stays NaN |
| `Rolls.RollFromFieldsAsWritten` | src/Components/DiceRoller.tsx:218-243 | with the guard as written, an emptied count field reaches the roll as NaN and logs a record of no dice whose total is the modifier alone; a parsed count rolls at least one die |
| `Rolls.DiceCount` | src/Components/DiceRoller.tsx:218 | the corrected count field: always at least 1; a typed count of at least 1 is kept |
| `Rolls.RollFromFields` | src/Components/DiceRoller.tsx:239-243 | the Roll button with normalised fields always rolls at least one die in range, and the total is the dice plus the normalised modifier |
| `Tiers.GetDiceRangeColor` | src/Components/DiceRoller.tsx:90-110 | rainbow iff the die is named d20, the value is a single roll and it equals the face count; otherwise red iff 3v <= n, yellow iff n < 3v <= 2n, green iff 3v is above both; never "none" |
| `Tiers.D20Tiers` | src/Components/DiceRoller.tsx:99-107 | a single d20 roll maps 1-6 red, 7-13 yellow, 14-19 green and 20 rainbow; a total of 20 is green |
| `Tiers.D100MaxIsGreen` | src/Components/DiceRoller.tsx:99 | a d100 rolling 100 is green, not rainbow |
| `Tiers.TiersMonotone` | src/Components/DiceRoller.tsx:101-107 | apart from the highlight, a larger value never gets a lower tier, and values below 1 are red |
| `Tiers.IndividualResults` | src/Components/DiceRoller.tsx:148-184 | one line per die: the die cell has the die's single-roll colour, the line's total is the die plus the modifier with that sum's total colour, the modifier cell is uncoloured; only a natural d20 maximum is rainbow, and a line total is never rainbow |
| `Tiers.SummedResults` | src/Components/DiceRoller.tsx:112-146 | one cell per die with its single-roll colour, an uncoloured modifier, and the record total with its total colour, which is never rainbow |
| `Tiers.ResultsPanel` | src/Components/DiceRoller.tsx:250-252 | individual dice get the line layout, which is exactly `IndividualResults` of the record (no line when it holds no die); all other dice get exactly `SummedResults` of the record; before any roll the panel is empty |
| `Naming.IsoDate` | src/App.tsx:146 | the date text has ten characters, with dashes at positions 4 and 7 |
| `Naming.FileName` | src/App.tsx:149 | a day-file name is the prefix `dice_roll_log_`, ten date characters, then `.json` |
| `Naming.FileNameRoundTrip` | src/App.tsx:228 | the date can be parsed back out of the file name |
| `Naming.FileNameInjective` | src/App.tsx:228 | two dates share a file name iff they are the same date, so the file written for today is the one read for today |
| `Roller.RollAndPost` | src/Components/DiceRoller.tsx:57-81 | the record holds one draw per requested die (none for a negative or NaN count), each in [1, faces], and its total is their sum plus the modifier; the Roll click succeeds iff today's file exists and parses, a missing file failing as unreadable and a malformed one as unparsable; on success the record is appended to today's file, shown, and the history is told to re-read, with other days unchanged; on failure the ledger, the shown result and the history flag all stay as they were; a ledger whose records all lie on their dice's faces stays so |
| `Ledger.EnsureDayFile` | src/App.tsx:184-196 | afterwards today's file exists; an existing readable file, malformed or not, is kept; a missing one is created empty; no other day changes |
| `Ledger.EnsureIdempotent` | src/App.tsx:187-195 | running start-up twice is the same as running it once |
| `Ledger.PostRolls` | src/Components/DiceRoller.tsx:42-55 | an append succeeds iff today's file parses; then today's list becomes old ++ [record] and every other day is unchanged; a missing file fails as unreadable, a malformed one as unparsable |
| `Ledger.PostFraming` | src/Components/DiceRoller.tsx:42-55 | after an append, a range covering today shows the new record right after today's old records; any other range is unchanged |
| `Ledger.PostAllAppends` | src/Components/DiceRoller.tsx:43-54 | repeated appends to a parsed file all succeed, add the records at the end in order, and leave other days alone |
| `Ledger.MalformedBlocksPosts` | src/Components/DiceRoller.tsx:44-48 | while today's file does not parse, every append fails as unparsable |
| `Ledger.TodayRoundTrip` | src/App.tsx:184-196 | when today's file is absent or parses, start-up then appends all succeed; a one-day query on today returns the old records followed by exactly the appended ones, and only the appended ones on a fresh day |
| `Ledger.MalformedTodayKept` | src/App.tsx:187-190 | a malformed file for today survives start-up unchanged, and every later append fails as unparsable |
| `Ledger.StartUpWellRolled` | src/App.tsx:184-196 | start-up keeps every parsed day's dice on their faces: the only file it adds is empty |
| `Ledger.PostWellRolled` | src/Components/DiceRoller.tsx:42-55 | appending a record whose dice lie on its die's faces keeps every parsed day so |
| `Ledger.RangeWellRolled` | src/App.tsx:225-241 | every record a range query returns from such a ledger has its dice on its die's faces |
| `Ledger.FetchRolls` | src/App.tsx:215-241 | reads days start..end inclusive, end-start+1 of them, none when end < start or a date is invalid; each day's list is what that day's file parses to, else empty; the result is the lists concatenated in day order |
| `Ledger.RangeSplit` | src/App.tsx:225-241 | a range is the concatenation of its part up to any day and the part after it |
| `Ledger.OneDayRange` | src/App.tsx:226-239 | a one-day range returns exactly that day's parsed records |
| `Ledger.RangeFrame` | src/App.tsx:227-239 | a range depends only on what its own days read |
| `Ledger.RangeMembers` | src/App.tsx:239-255 | a record is in a range iff some day of the range holds it |
| `Ledger.UnreadableDayIsolated` | src/App.tsx:230-237 | a missing or malformed day adds nothing, and every other day of the range is returned as before |
| `Histogram.FilterDiceRolls` | src/App.tsx:266-283 | one entry per face 1..diceNum in order; entry i counts how often face i+1 occurs in the rolls of records with the same face count; every die value must be a face |
| `Histogram.HistogramPermutation` | src/App.tsx:274-280 | the histogram is the same for any reordering of the records |
| `Histogram.OutcomesPermutation` | src/App.tsx:274-277 | reordering the records only reorders the collected die values |
| `Histogram.OnlyMatchingRollsMatter` | src/App.tsx:275-276 | records match by face count alone; name, date, count, modifier and total do not affect the histogram |
| `Histogram.OtherDiceIgnored` | src/App.tsx:275 | records of dice with other face counts leave the histogram unchanged |
| `Histogram.OutcomesOnFaces` | src/App.tsx:274-279 | in records whose dice lie on their faces, every value collected for a chart is a face of that chart's die |
| `Histogram.FetchedRollsOnFaces` | src/App.tsx:274-279 | any date range read from such a ledger meets the histogram's in-range requirement, so `rollCountArray[roll - 1]` always exists |
| `Histogram.HistogramSum` | src/Components/DiceHistory.tsx:15 | the "Total Rolls" sum of the bars equals the number of die values in matching records |

## Left out

- **File system.** The Tauri calls (`createDir`, `readTextFile`, `writeTextFile`) and JSON text are abstracted into the store map. A write that fails (disk full, no permission) is not modelled; only read and parse failures are.
- **Random draws.** `Math.random` is not modelled: each draw is an input fraction. Floating-point rounding of `floor(r*n + 1)` and of `n/3` is not modelled. For the catalog's face counts, that rounding cannot move a threshold across an integer, so the exact rational thresholds give the same colours.
- **Calendar.** Converting between day numbers and calendar dates is not modelled, and neither are time zones. The source parses the picked dates as UTC midnight but adds days in local time. Each day is read at the start date's local clock time. Days whose UTC offset is larger than the start day's map to the previous date. The date just before such a stretch is read twice, and the stretch's last date is never read. With a winter start and today in summer time, today's file is missed. This model cannot show that. `today` is fixed when the app loads, so rolls after midnight still go to the load day's file.
- **Unreachable fallback.** The `else` branch of `fetchRolls` (src/App.tsx:242-254) is not modelled. A `Date` object is always truthy, so the branch never runs.
- **Concurrency and React state.** Async ordering, `useMemo`/`useEffect`, the loading flag and stale query results are not modelled. Neither are updates lost between two concurrent appends. The rerender toggle is modelled only as a flag that a successful roll flips. The Roll button sets the loading flag before rolling, and nothing clears it when the append fails, so the `<Loading />` overlay (src/App.tsx:387) stays up until the date range changes.
- **Non-list JSON in a day file.** A day file whose text is valid JSON but not a list of records (`{}`, `null`, a number) is not modelled. The range query would push that value, `flat()` would keep it as one element, and `filterDiceRolls` (src/App.tsx:275) would then throw on `roll.diceType.diceNum`.
- **Presentation.** Not modelled: the theme table and `theme.json`, the colour hex codes in src/Components/RollResult.tsx, the charts, the loading animation, `clearSelections`, and the `"0 "` text shown for a zero modifier.
- **NaN in the JSON text.** `JSON.stringify` writes NaN as `null`, so a record logged from an emptied count field is read back with `diceCount: null`. The store keeps the record itself, so the model reads back NaN. Nothing downstream reads `diceCount`.
- `Histogram.FilterDiceRolls`: requires every collected die value to be a face of the die. For a value outside 1..diceNum, `rollCountArray[roll - 1]` is undefined and reading `.rollCount` throws during render; only a hand-edited day file can hold such a value. The throw is not modelled; `Histogram.FetchedRollsOnFaces` shows that a ledger written only by the app always meets the requirement.
- **Text parsing.** `parseInt` is not modelled; the count and modifier fields take its result, a number or NaN, as input.
- `Tiers.GetDiceRangeColor`: for a die with a negative face count, green is stated as "3v above both n and 2n". No such die exists; for every real die this is the same as 3v > 2n.

## Findings

| source | as written | input that shows it | evidently intended | confidence | as-written member | corrected member |
|---|---|---|---|---|---|---|
| src/Components/DiceRoller.tsx:218 | `parseInt(v) < 1 ? 1 : parseInt(v)` | an emptied count field: `parseInt("")` is NaN and `NaN < 1` is false, so the count becomes NaN; the roll loop `i < NaN` then runs zero times and logs a roll of no dice | any count that is not a number of at least 1 becomes 1 | medium, not executed | `Rolls.DiceCountAsWritten`, shown by `Rolls.RollFromFieldsAsWritten` | `Rolls.DiceCount`, used by `Rolls.RollFromFields` |

=== FILE: catalog.dfy ===
/** The dice the roller offers: face count, menu name and how a roll is displayed. */
module Catalog {
  import opened Wrappers

  /** `add` shows one summed line; `individual` shows one line per die. */
  datatype Display = Add | Individual

  datatype Dice = Dice(diceNum: int, diceName: string, display: Display)

  /** The catalog in menu order. */
  const DiceList: seq<Dice> :=
    [ Dice(2, "d2", Add),
      Dice(2, "d2(separate)", Individual),
      Dice(4, "d4", Add),
      Dice(6, "d6", Add),
      Dice(8, "d8", Add),
      Dice(10, "d10", Add),
      Dice(12, "d12", Add),
      Dice(20, "d20", Individual),
      Dice(100, "d100", Individual) ]

  /** The die the roller starts with and returns to on "Clear". */
  const DefaultDice: Dice := Dice(20, "d20", Individual)

  /** Menu names do not repeat. */
  predicate UniqueNames(catalog: seq<Dice>)
  {
    forall i, j :: 0 <= i < j < |catalog| ==> catalog[i].diceName != catalog[j].diceName
  }

  /** Looks a die up by its menu name, returning the first entry that carries it. */
  function FindDice(catalog: seq<Dice>, name: string): (r: Option<Dice>)
    ensures r.Some? <==> exists i :: 0 <= i < |catalog| && catalog[i].diceName == name
    ensures r.Some? ==> exists i :: 0 <= i < |catalog| && catalog[i] == r.value
                                    && r.value.diceName == name
                                    && forall j :: 0 <= j < i ==> catalog[j].diceName != name
  {
    if |catalog| == 0 then None
    else if catalog[0].diceName == name then Some(catalog[0])
    else
      var r := FindDice(catalog[1..], name);
      if r.Some? then
        assert forall k :: 0 <= k < |catalog| - 1 ==> catalog[1..][k] == catalog[k + 1];
        r
      else
        r
  }

  /** With unique names, looking up an entry's own name finds exactly that entry. */
  lemma {:induction false} FindDiceOwnName(catalog: seq<Dice>, i: int)
    requires UniqueNames(catalog)
    requires 0 <= i < |catalog|
    ensures FindDice(catalog, catalog[i].diceName) == Some(catalog[i])
  {
    var r := FindDice(catalog, catalog[i].diceName);
    var k :| 0 <= k < |catalog| && catalog[k] == r.value && r.value.diceName == catalog[i].diceName
             && forall j :: 0 <= j < k ==> catalog[j].diceName != catalog[i].diceName;
    assert k == i;
  }

  /** The dice that get a statistics panel: every entry except "d2(separate)". */
  function HistoryPanels(catalog: seq<Dice>): (panels: seq<Dice>)
    ensures forall d :: d in panels <==> d in catalog && d.diceName != "d2(separate)"
    ensures |panels| <= |catalog|
  {
    if |catalog| == 0 then []
    else
      var rest := HistoryPanels(catalog[1..]);
      assert forall d :: d in catalog <==> d == catalog[0] || d in catalog[1..];
      if catalog[0].diceName != "d2(separate)" then [catalog[0]] + rest else rest
  }

  /** Menu names in the shipped catalog are unique and every die has at least one face. */
  lemma CatalogWellFormed()
    ensures UniqueNames(DiceList)
    ensures forall i :: 0 <= i < |DiceList| ==> DiceList[i].diceNum >= 1
  {
  }

  /** The only entry named "d20" is the 20-faced, individually displayed default die. */
  lemma CriticalDieIsDefault()
    ensures forall i :: 0 <= i < |DiceList| && DiceList[i].diceName == "d20" ==> DiceList[i] == DefaultDice
    ensures FindDice(DiceList, "d20") == Some(DefaultDice)
  {
    CatalogWellFormed();
    FindDiceOwnName(DiceList, 7);
  }

  /** A catalog without a "d2(separate)" entry keeps every entry as a panel. */
  lemma {:induction false} PanelsKeepAll(catalog: seq<Dice>)
    requires forall i :: 0 <= i < |catalog| ==> catalog[i].diceName != "d2(separate)"
    ensures HistoryPanels(catalog) == catalog
  {
    if |catalog| > 0 {
      PanelsKeepAll(catalog[1..]);
      assert [catalog[0]] + catalog[1..] == catalog;
    }
  }

  /** The panels are the catalog minus "d2(separate)". */
  lemma PanelList()
    ensures HistoryPanels(DiceList) == [DiceList[0]] + DiceList[2..]
  {
    var c := DiceList;
    var rest := c[2..];
    assert forall i :: 0 <= i < |rest| ==> rest[i].diceName != "d2(separate)";
    PanelsKeepAll(rest);
    assert c[1..][1..] == rest;
    assert c[1].diceName == "d2(separate)";
    assert HistoryPanels(c[1..]) == rest;
  }

  /** Each face count of the catalog appears exactly once in the panel list. */
  lemma PanelFaceCounts(panels: seq<Dice>)
    requires panels == [DiceList[0]] + DiceList[2..]
    ensures forall i, j :: 0 <= i < j < |panels| ==> panels[i].diceNum != panels[j].diceNum
    ensures forall i :: 0 <= i < |DiceList| ==>
              exists j :: 0 <= j < |panels| && panels[j].diceNum == DiceList[i].diceNum
  {
    var nums := [2, 4, 6, 8, 10, 12, 20, 100];
    var all := [2, 2, 4, 6, 8, 10, 12, 20, 100];
    assert |panels| == |nums| == 8;
    forall k | 0 <= k < 8 ensures panels[k].diceNum == nums[k] {
      if k == 0 {
        assert panels[k] == DiceList[0];
      } else {
        assert panels[k] == DiceList[k + 1];
      }
    }
    forall k | 0 <= k < 9 ensures DiceList[k].diceNum == all[k] {
    }
    forall i, j | 0 <= i < j < 8 ensures panels[i].diceNum != panels[j].diceNum {
      assert nums[i] < nums[j];
    }
    forall i | 0 <= i < |DiceList|
      ensures exists j :: 0 <= j < |panels| && panels[j].diceNum == DiceList[i].diceNum
    {
      var j := if i == 0 then 0 else i - 1;
      assert all[i] == nums[j];
      assert panels[j].diceNum == DiceList[i].diceNum;
    }
  }

  /** Each face count of the catalog gets exactly one statistics panel. */
  lemma PanelsShowEachFaceCountOnce(panels: seq<Dice>)
    requires panels == HistoryPanels(DiceList)
    ensures forall i, j :: 0 <= i < j < |panels| ==> panels[i].diceNum != panels[j].diceNum
    ensures forall i :: 0 <= i < |DiceList| ==>
              exists j :: 0 <= j < |panels| && panels[j].diceNum == DiceList[i].diceNum
  {
    PanelList();
    PanelFaceCounts(panels);
  }
}

=== FILE: histogram.dfy ===
/** Per-face roll statistics for one die over the loaded roll records. */
module Histogram {
  import opened Catalog
  import opened Rolls
  import opened Ledger

  /** One bar of a statistics chart: how often face `rollNumber` came up. */
  datatype RollNumberCount = RollNumberCount(rollNumber: int, rollCount: nat)

  /** Whether a record belongs to the population of dice with `faces` faces; the die's
      name plays no part. */
  predicate Matches(r: RollResult, faces: int)
  {
    r.diceType.diceNum == faces
  }

  /** The die values one record contributes to the population of `faces`. */
  function Chunk(r: RollResult, faces: int): seq<int>
  {
    if Matches(r, faces) then r.rolls else []
  }

  /** The die values of every matching record, record by record, in order. */
  function Outcomes(history: seq<RollResult>, faces: int): seq<int>
  {
    if |history| == 0 then []
    else Chunk(history[0], faces) + Outcomes(history[1..], faces)
  }

  /** How many dice the matching records rolled in all. */
  function DiceRolled(history: seq<RollResult>, faces: int): nat
  {
    if |history| == 0 then 0
    else |Chunk(history[0], faces)| + DiceRolled(history[1..], faces)
  }

  /** How many times `v` occurs in `xs`. */
  function Occurrences(xs: seq<int>, v: int): nat
  {
    if |xs| == 0 then 0 else Occurrences(xs[..|xs| - 1], v) + (if xs[|xs| - 1] == v then 1 else 0)
  }

  /** Reference histogram: face i + 1 counted over the matching records' dice. */
  function Histogram(history: seq<RollResult>, faces: int): seq<RollNumberCount>
  {
    seq(if faces < 0 then 0 else faces,
        i => RollNumberCount(i + 1, Occurrences(Outcomes(history, faces), i + 1)))
  }

  /** The "Total Rolls" figure of a statistics panel: the sum of its bars. */
  function TotalRolls(bars: seq<RollNumberCount>): int
  {
    if |bars| == 0 then 0 else TotalRolls(bars[..|bars| - 1]) + bars[|bars| - 1].rollCount
  }

  /** Builds one zero counter per face 1..diceNum, then counts every die value of the
      records whose die has the same number of faces. Every such value must be a face
      of the die, or the counter lookup would be out of bounds. */
  method FilterDiceRolls(history: seq<RollResult>, dice: Dice) returns (rollCountArray: seq<RollNumberCount>)
    requires forall x :: x in Outcomes(history, dice.diceNum) ==> 1 <= x <= dice.diceNum
    ensures |rollCountArray| == (if dice.diceNum < 0 then 0 else dice.diceNum)
    ensures forall i :: 0 <= i < |rollCountArray| ==>
              && rollCountArray[i].rollNumber == i + 1
              && rollCountArray[i].rollCount == Occurrences(Outcomes(history, dice.diceNum), i + 1)
    ensures rollCountArray == Histogram(history, dice.diceNum)
  {
    rollCountArray := [];
    var i := 1;
    while i <= dice.diceNum
      invariant 1 <= i && (dice.diceNum >= 0 ==> i <= dice.diceNum + 1)
      invariant dice.diceNum < 0 ==> i == 1
      invariant |rollCountArray| == i - 1
      invariant forall k :: 0 <= k < |rollCountArray| ==> rollCountArray[k] == RollNumberCount(k + 1, 0)
    {
      rollCountArray := rollCountArray + [RollNumberCount(i, 0)];
      i := i + 1;
    }
    // The filter / map / flat step is taken to be the defining function itself.
    var outcomes := Outcomes(history, dice.diceNum);
    var j := 0;
    while j < |outcomes|
      invariant 0 <= j <= |outcomes|
      invariant |rollCountArray| == (if dice.diceNum < 0 then 0 else dice.diceNum)
      invariant forall k :: 0 <= k < |rollCountArray| ==>
                  rollCountArray[k] == RollNumberCount(k + 1, Occurrences(outcomes[..j], k + 1))
    {
      var roll := outcomes[j];
      assert roll in outcomes;
      OccurrencesAppend(outcomes[..j], roll);
      assert outcomes[..j + 1] == outcomes[..j] + [roll];
      var bar := rollCountArray[roll - 1];
      rollCountArray := rollCountArray[roll - 1 := bar.(rollCount := bar.rollCount + 1)];
      j := j + 1;
    }
    assert outcomes[..|outcomes|] == outcomes;
    assert |rollCountArray| == |Histogram(history, dice.diceNum)|;
  }

  lemma OccurrencesAppend(xs: seq<int>, x: int)
    ensures forall v :: Occurrences(xs + [x], v) == Occurrences(xs, v) + (if x == v then 1 else 0)
  {
    assert (xs + [x])[..|xs|] == xs;
  }

  /** The outcomes of two stretches of history, one after the other. */
  lemma {:induction false} OutcomesAppend(a: seq<RollResult>, b: seq<RollResult>, faces: int)
    ensures Outcomes(a + b, faces) == Outcomes(a, faces) + Outcomes(b, faces)
  {
    if |a| == 0 {
      assert a + b == b;
    } else {
      assert (a + b)[0] == a[0];
      assert (a + b)[1..] == a[1..] + b;
      OutcomesAppend(a[1..], b, faces);
    }
  }

  /** One outcome per die rolled by a matching record. */
  lemma {:induction false} OutcomesCount(history: seq<RollResult>, faces: int)
    ensures |Outcomes(history, faces)| == DiceRolled(history, faces)
  {
    if |history| > 0 {
      OutcomesCount(history[1..], faces);
    }
  }

  lemma {:induction false} OccurrencesMultiset(xs: seq<int>, v: int)
    ensures Occurrences(xs, v) == multiset(xs)[v]
  {
    if |xs| > 0 {
      OccurrencesMultiset(xs[..|xs| - 1], v);
      assert xs == xs[..|xs| - 1] + [xs[|xs| - 1]];
    }
  }

  /** Taking record i out of the history takes exactly its die values out of the outcomes. */
  lemma OutcomesRemove(b: seq<RollResult>, i: int, faces: int)
    requires 0 <= i < |b|
    ensures multiset(Outcomes(b, faces))
            == multiset(Chunk(b[i], faces)) + multiset(Outcomes(b[..i] + b[i + 1..], faces))
  {
    var x, pre, post := b[i], b[..i], b[i + 1..];
    var tail := [x] + post;
    assert pre + tail == b;
    assert tail[0] == x && tail[1..] == post;
    var chunk := Chunk(x, faces);
    assert Outcomes(tail, faces) == chunk + Outcomes(post, faces);
    OutcomesAppend(pre, tail, faces);
    OutcomesAppend(pre, post, faces);
    var p, q := Outcomes(pre, faces), Outcomes(post, faces);
    assert Outcomes(b, faces) == p + (chunk + q);
    assert Outcomes(pre + post, faces) == p + q;
    assert multiset(p + (chunk + q)) == multiset(p) + multiset(chunk) + multiset(q);
  }

  lemma MultisetRemove(a: seq<RollResult>, b: seq<RollResult>, i: int)
    requires multiset(a) == multiset(b) && |a| > 0
    requires 0 <= i < |b| && b[i] == a[0]
    ensures multiset(a[1..]) == multiset(b[..i] + b[i + 1..])
  {
    var x := a[0];
    assert a == [x] + a[1..];
    assert b == b[..i] + [x] + b[i + 1..];
    assert multiset(a[1..]) == multiset(a) - multiset([x]);
    assert multiset(b[..i] + b[i + 1..]) == multiset(b) - multiset([x]);
  }

  /** Reordering the records reorders the outcomes, and nothing more. */
  lemma {:induction false} OutcomesPermutation(a: seq<RollResult>, b: seq<RollResult>, faces: int)
    requires multiset(a) == multiset(b)
    ensures multiset(Outcomes(a, faces)) == multiset(Outcomes(b, faces))
    decreases |a|
  {
    if |a| == 0 {
      assert |b| == |multiset(b)| == 0;
    } else {
      assert a[0] in multiset(b);
      var i :| 0 <= i < |b| && b[i] == a[0];
      MultisetRemove(a, b, i);
      OutcomesPermutation(a[1..], b[..i] + b[i + 1..], faces);
      OutcomesRemove(b, i, faces);
      assert Outcomes(a, faces) == Chunk(a[0], faces) + Outcomes(a[1..], faces);
    }
  }

  /** The histogram does not depend on the order of the records. */
  lemma HistogramPermutation(a: seq<RollResult>, b: seq<RollResult>, faces: int)
    requires multiset(a) == multiset(b)
    ensures Histogram(a, faces) == Histogram(b, faces)
  {
    OutcomesPermutation(a, b, faces);
    forall i | 0 <= i < |Histogram(a, faces)|
      ensures Histogram(a, faces)[i] == Histogram(b, faces)[i]
    {
      OccurrencesMultiset(Outcomes(a, faces), i + 1);
      OccurrencesMultiset(Outcomes(b, faces), i + 1);
    }
  }

  /** Records of other face counts never reach the histogram, and of a matching record
      only its die values do: name, date, count, modifier and total play no part. */
  lemma {:induction false} OnlyMatchingRollsMatter(a: seq<RollResult>, b: seq<RollResult>, faces: int)
    requires |a| == |b|
    requires forall i :: 0 <= i < |a| ==> (Matches(a[i], faces) <==> Matches(b[i], faces))
    requires forall i :: 0 <= i < |a| && Matches(a[i], faces) ==> a[i].rolls == b[i].rolls
    ensures Histogram(a, faces) == Histogram(b, faces)
  {
    OutcomesAgree(a, b, faces);
  }

  lemma {:induction false} OutcomesAgree(a: seq<RollResult>, b: seq<RollResult>, faces: int)
    requires |a| == |b|
    requires forall i :: 0 <= i < |a| ==> (Matches(a[i], faces) <==> Matches(b[i], faces))
    requires forall i :: 0 <= i < |a| && Matches(a[i], faces) ==> a[i].rolls == b[i].rolls
    ensures Outcomes(a, faces) == Outcomes(b, faces)
  {
    if |a| > 0 {
      OutcomesAgree(a[1..], b[1..], faces);
    }
  }

  /** Appending records of other dice leaves the histogram as it was. */
  lemma OtherDiceIgnored(history: seq<RollResult>, others: seq<RollResult>, faces: int)
    requires forall i :: 0 <= i < |others| ==> !Matches(others[i], faces)
    ensures Histogram(history + others, faces) == Histogram(history, faces)
  {
    OutcomesAppend(history, others, faces);
    NoMatchNoOutcomes(others, faces);
    assert Outcomes(history + others, faces) == Outcomes(history, faces);
  }

  lemma {:induction false} NoMatchNoOutcomes(others: seq<RollResult>, faces: int)
    requires forall i :: 0 <= i < |others| ==> !Matches(others[i], faces)
    ensures Outcomes(others, faces) == []
  {
    if |others| > 0 {
      NoMatchNoOutcomes(others[1..], faces);
    }
  }

  /** Sum over faces 1..k of the occurrences of that face. */
  function FacesUpTo(xs: seq<int>, k: nat): nat
  {
    if k == 0 then 0 else FacesUpTo(xs, k - 1) + Occurrences(xs, k)
  }

  lemma {:induction false} FacesUpToAppend(xs: seq<int>, x: int, k: nat)
    ensures FacesUpTo(xs + [x], k) == FacesUpTo(xs, k) + (if 1 <= x <= k then 1 else 0)
  {
    if k > 0 {
      FacesUpToAppend(xs, x, k - 1);
      assert (xs + [x])[..|xs|] == xs;
    }
  }

  lemma {:induction false} FacesUpToNone(xs: seq<int>, k: nat)
    requires |xs| == 0
    ensures FacesUpTo(xs, k) == 0
  {
    if k > 0 {
      FacesUpToNone(xs, k - 1);
    }
  }

  /** When every value is a face 1..n, the per-face counts add up to the number of values. */
  lemma {:induction false} FacesUpToAll(xs: seq<int>, n: nat)
    requires forall k :: 0 <= k < |xs| ==> 1 <= xs[k] <= n
    ensures FacesUpTo(xs, n) == |xs|
  {
    if |xs| == 0 {
      FacesUpToNone(xs, n);
    } else {
      var init := xs[..|xs| - 1];
      assert forall k :: 0 <= k < |init| ==> init[k] == xs[k];
      FacesUpToAll(init, n);
      FacesUpToAppend(init, xs[|xs| - 1], n);
      assert init + [xs[|xs| - 1]] == xs;
    }
  }

  lemma {:induction false} TotalRollsPrefix(history: seq<RollResult>, faces: nat, k: nat)
    requires k <= faces
    ensures TotalRolls(Histogram(history, faces)[..k]) == FacesUpTo(Outcomes(history, faces), k)
  {
    if k > 0 {
      TotalRollsPrefix(history, faces, k - 1);
      assert Histogram(history, faces)[..k][..k - 1] == Histogram(history, faces)[..k - 1];
    }
  }

  /** The bars of a panel add up to the number of dice the matching records rolled. */
  lemma HistogramSum(history: seq<RollResult>, faces: nat)
    requires forall x :: x in Outcomes(history, faces) ==> 1 <= x <= faces
    ensures TotalRolls(Histogram(history, faces)) == |Outcomes(history, faces)| == DiceRolled(history, faces)
  {
    var h := Histogram(history, faces);
    TotalRollsPrefix(history, faces, faces);
    assert h[..faces] == h;
    var xs := Outcomes(history, faces);
    assert forall k :: 0 <= k < |xs| ==> xs[k] in xs;
    FacesUpToAll(xs, faces);
    OutcomesCount(history, faces);
  }

  /** In well-rolled records every collected die value is a face of the die counted. */
  lemma {:induction false} OutcomesOnFaces(history: seq<RollResult>, faces: int)
    requires WellRolled(history)
    ensures forall v :: v in Outcomes(history, faces) ==> 1 <= v <= faces
  {
    if |history| > 0 {
      assert WellRolled(history[1..]) by {
        assert forall k :: 0 <= k < |history[1..]| ==> history[1..][k] == history[k + 1];
      }
      OutcomesOnFaces(history[1..], faces);
      assert AllFaces(history[0].rolls, history[0].diceType.diceNum);
    }
  }

  /** The statistics of any date range of a well-rolled ledger meet the histogram's
      precondition: no die value falls outside the faces of its chart. */
  lemma FetchedRollsOnFaces(store: Store, start: Day, end: Day, dice: Dice)
    requires WellRolledStore(store)
    ensures forall v :: v in Outcomes(RangeRolls(store, start, end), dice.diceNum) ==> 1 <= v <= dice.diceNum
  {
    RangeWellRolled(store, start, end);
    OutcomesOnFaces(RangeRolls(store, start, end), dice.diceNum);
  }
}

=== FILE: ledger.dfy ===
/** The day ledger: one JSON file of roll records per day, the start-up step that makes
    sure today's file exists, the read-modify-write append, and the range query. */
module Ledger {
  import opened Wrappers
  import opened Rolls

  /** A calendar day, counted in whole days; consecutive days differ by one. */
  type Day = int

  /** What a day file holds when it can be read: a JSON list of records, or text that
      `JSON.parse` rejects. */
  datatype Content = Malformed | Parsed(records: seq<RollResult>)

  /** The ledger directory: days without a key have no readable file. */
  type Store = map<Day, Content>

  /** Why an append failed: the file could not be read, or its content did not parse. */
  datatype PostError = Unreadable | Unparsable

  /** Start-up: if today's file cannot be read it is created holding `[]`; a readable
      file, even one that does not parse, is left alone. */
  function EnsureDayFile(store: Store, today: Day): (s: Store)
    ensures s.Keys == store.Keys + {today}
    ensures forall d :: d in store ==> s[d] == store[d]
    ensures today !in store ==> s[today] == Parsed([])
  {
    if today in store then store else store[today := Parsed([])]
  }

  /** Running start-up twice is the same as running it once. */
  lemma EnsureIdempotent(store: Store, today: Day)
    ensures EnsureDayFile(EnsureDayFile(store, today), today) == EnsureDayFile(store, today)
  {
  }

  /** Appends one record to today's file by reading the whole file, adding the record
      and writing the list back. A file that cannot be read or parsed makes the append
      fail before anything is written. */
  function PostRolls(store: Store, today: Day, body: RollResult): (r: Result<Store, PostError>)
    ensures today !in store ==> r == Failure(Unreadable)
    ensures today in store && store[today].Malformed? ==> r == Failure(Unparsable)
    ensures r.Success? <==> today in store && store[today].Parsed?
    ensures r.Success? ==> && r.value.Keys == store.Keys
                           && r.value[today] == Parsed(store[today].records + [body])
                           && forall d :: d in store && d != today ==> r.value[d] == store[d]
  {
    if today !in store then Failure(Unreadable)
    else
      match store[today]
      case Malformed => Failure(Unparsable)
      case Parsed(data) => Success(store[today := Parsed(data + [body])])
  }

  /** Appends several records in order; the first failure stops the sequence. */
  function PostAll(store: Store, today: Day, bodies: seq<RollResult>): Result<Store, PostError>
  {
    if |bodies| == 0 then Success(store)
    else
      match PostAll(store, today, bodies[..|bodies| - 1])
      case Success(s) => PostRolls(s, today, bodies[|bodies| - 1])
      case Failure(e) => Failure(e)
  }

  /** What the range query reads for one day: the parsed records, or nothing when the
      file is missing or `JSON.parse` rejects its text. */
  function ReadDay(store: Store, d: Day): seq<RollResult>
  {
    if d in store && store[d].Parsed? then store[d].records else []
  }

  /** Reference definition of the range query: the days start..end, both included, in
      ascending order, each contributing what ReadDay finds. */
  function RangeRolls(store: Store, start: Day, end: Day): seq<RollResult>
    decreases end - start
  {
    if end < start then [] else RangeRolls(store, start, end - 1) + ReadDay(store, end)
  }

  /** Concatenates per-day lists, first to last. */
  function Flatten(chunks: seq<seq<RollResult>>): seq<RollResult>
  {
    if |chunks| == 0 then [] else Flatten(chunks[..|chunks| - 1]) + chunks[|chunks| - 1]
  }

  lemma FlattenAppend(chunks: seq<seq<RollResult>>, c: seq<RollResult>)
    ensures Flatten(chunks + [c]) == Flatten(chunks) + c
  {
    assert (chunks + [c])[..|chunks|] == chunks;
  }

  /** A date picker value: a date, or text that does not make a valid date. */
  datatype DateInput = Valid(day: Day) | InvalidDate

  /** The range query: walks the days from start to end inclusive, reading each day's
      file into its own list, then flattens the lists. An end before the start, or a
      date that is not valid (its day difference is NaN), reads no day at all. */
  method FetchRolls(store: Store, startDate: DateInput, endDate: DateInput)
    returns (days: seq<seq<RollResult>>, response: seq<RollResult>)
    ensures startDate.InvalidDate? || endDate.InvalidDate? ==> days == [] && response == []
    ensures startDate.Valid? && endDate.Valid? ==>
              && |days| == (if endDate.day < startDate.day then 0 else endDate.day - startDate.day + 1)
              && (forall k :: 0 <= k < |days| ==> days[k] == ReadDay(store, startDate.day + k))
              && response == RangeRolls(store, startDate.day, endDate.day)
    ensures response == Flatten(days)
  {
    days := [];
    if startDate.InvalidDate? || endDate.InvalidDate? {
      response := [];
      return;
    }
    var start, end := startDate.day, endDate.day;
    var differenceInDays := end - start;
    ghost var count := if differenceInDays < 0 then 0 else differenceInDays + 1;
    var i := 0;
    while i <= differenceInDays
      invariant 0 <= i <= count
      invariant |days| == i
      invariant forall k :: 0 <= k < i ==> days[k] == ReadDay(store, start + k)
      invariant Flatten(days) == RangeRolls(store, start, start + i - 1)
    {
      var data := ReadDay(store, start + i);
      NextDay(store, start, days, i);
      days := days + [data];
      i := i + 1;
    }
    response := Flatten(days);
  }

  /** One more day of the walk extends the flattened result by that day's list. */
  lemma NextDay(store: Store, start: Day, days: seq<seq<RollResult>>, i: nat)
    requires Flatten(days) == RangeRolls(store, start, start + i - 1)
    ensures Flatten(days + [ReadDay(store, start + i)]) == RangeRolls(store, start, start + i)
  {
    FlattenAppend(days, ReadDay(store, start + i));
  }

  /** A range splits at any day into the part up to that day and the part after it. */
  lemma {:induction false} RangeSplit(store: Store, start: Day, mid: Day, end: Day)
    requires start - 1 <= mid <= end
    ensures RangeRolls(store, start, end) == RangeRolls(store, start, mid) + RangeRolls(store, mid + 1, end)
    decreases end - mid
  {
    if end > mid {
      RangeSplit(store, start, mid, end - 1);
    }
  }

  /** A one-day range reads exactly that day. */
  lemma OneDayRange(store: Store, d: Day)
    ensures RangeRolls(store, d, d) == ReadDay(store, d)
    ensures d in store && store[d].Parsed? ==> RangeRolls(store, d, d) == store[d].records
  {
    assert RangeRolls(store, d, d - 1) == [];
  }

  /** A range depends only on what its own days read. */
  lemma {:induction false} RangeFrame(a: Store, b: Store, start: Day, end: Day)
    requires forall d :: start <= d <= end ==> ReadDay(a, d) == ReadDay(b, d)
    ensures RangeRolls(a, start, end) == RangeRolls(b, start, end)
    decreases end - start
  {
    if end >= start {
      RangeFrame(a, b, start, end - 1);
    }
  }

  /** A record is in a range exactly when some day of the range holds it. */
  lemma {:induction false} RangeMembers(store: Store, start: Day, end: Day, x: RollResult)
    ensures x in RangeRolls(store, start, end) <==> exists d :: start <= d <= end && x in ReadDay(store, d)
    decreases end - start
  {
    if end >= start {
      RangeMembers(store, start, end - 1, x);
      if x in ReadDay(store, end) {
        assert start <= end <= end;
      }
    }
  }

  /** A day whose file is missing or does not parse drops out of the range without
      disturbing the days around it. */
  lemma UnreadableDayIsolated(store: Store, broken: Store, start: Day, d: Day, end: Day)
    requires start <= d <= end
    requires d !in broken || broken[d].Malformed?
    requires forall e :: e != d ==> ReadDay(broken, e) == ReadDay(store, e)
    ensures RangeRolls(broken, start, end) == RangeRolls(store, start, d - 1) + RangeRolls(store, d + 1, end)
  {
    RangeSplit(broken, start, d - 1, end);
    RangeSplit(broken, d, d, end);
    OneDayRange(broken, d);
    RangeFrame(broken, store, start, d - 1);
    RangeFrame(broken, store, d + 1, end);
  }

  /** After a successful append, today reads its old records plus the new one and every
      other day reads as before. */
  lemma PostReads(store: Store, today: Day, body: RollResult)
    requires PostRolls(store, today, body).Success?
    ensures ReadDay(PostRolls(store, today, body).value, today) == ReadDay(store, today) + [body]
    ensures forall d :: d != today ==> ReadDay(PostRolls(store, today, body).value, d) == ReadDay(store, d)
  {
  }

  /** An append touches only its own day: a range that covers that day gains the record
      right after that day's old records, any other range is unchanged. */
  lemma PostFraming(store: Store, today: Day, body: RollResult, start: Day, end: Day)
    requires PostRolls(store, today, body).Success?
    ensures var after := PostRolls(store, today, body).value;
      start <= today <= end ==>
        RangeRolls(after, start, end)
          == RangeRolls(store, start, today) + [body] + RangeRolls(store, today + 1, end)
    ensures var after := PostRolls(store, today, body).value;
      !(start <= today <= end) ==> RangeRolls(after, start, end) == RangeRolls(store, start, end)
  {
    var after := PostRolls(store, today, body).value;
    PostReads(store, today, body);
    if start <= today <= end {
      PostCovered(store, after, today, body, start, end);
    } else {
      RangeFrame(after, store, start, end);
    }
  }

  lemma PostCovered(store: Store, after: Store, today: Day, body: RollResult, start: Day, end: Day)
    requires start <= today <= end
    requires ReadDay(after, today) == ReadDay(store, today) + [body]
    requires forall d :: d != today ==> ReadDay(after, d) == ReadDay(store, d)
    ensures RangeRolls(after, start, end)
              == RangeRolls(store, start, today) + [body] + RangeRolls(store, today + 1, end)
  {
    var before := RangeRolls(store, start, today - 1);
    RangeFrame(after, store, start, today - 1);
    RangeFrame(after, store, today + 1, end);
    assert RangeRolls(after, start, today) == before + ReadDay(after, today);
    assert RangeRolls(store, start, today) == before + ReadDay(store, today);
    RangeSplit(after, start, today, end);
  }

  /** Appending in order to a parsed file succeeds and adds the records at the end of
      today's list; every other day reads as before. */
  lemma {:induction false} PostAllAppends(store: Store, today: Day, bodies: seq<RollResult>)
    requires today in store && store[today].Parsed?
    ensures PostAll(store, today, bodies).Success?
    ensures var after := PostAll(store, today, bodies).value;
      && today in after && after[today] == Parsed(store[today].records + bodies)
      && forall d :: d != today ==> ReadDay(after, d) == ReadDay(store, d)
  {
    if |bodies| > 0 {
      var init := bodies[..|bodies| - 1];
      PostAllAppends(store, today, init);
      assert store[today].records + init + [bodies[|bodies| - 1]] == store[today].records + bodies;
    }
  }

  /** Start-up followed by any number of appends: a one-day query on today sees the
      records that were already there followed by exactly the appended ones, in order;
      on a fresh day it sees exactly the appended ones. */
  lemma {:induction false} TodayRoundTrip(store: Store, today: Day, bodies: seq<RollResult>)
    requires today !in store || store[today].Parsed?
    ensures PostAll(EnsureDayFile(store, today), today, bodies).Success?
    ensures RangeRolls(PostAll(EnsureDayFile(store, today), today, bodies).value, today, today)
              == ReadDay(store, today) + bodies
    ensures today !in store ==>
              RangeRolls(PostAll(EnsureDayFile(store, today), today, bodies).value, today, today) == bodies
  {
    var s := EnsureDayFile(store, today);
    PostAllAppends(s, today, bodies);
    OneDayRange(PostAll(s, today, bodies).value, today);
  }

  /** A day file that does not parse survives start-up and makes every append fail. */
  lemma {:induction false} MalformedTodayKept(store: Store, today: Day, bodies: seq<RollResult>)
    requires today in store && store[today].Malformed?
    requires |bodies| > 0
    ensures EnsureDayFile(store, today) == store
    ensures PostAll(EnsureDayFile(store, today), today, bodies) == Failure(Unparsable)
  {
    MalformedBlocksPosts(store, today, bodies);
  }

  /** While today's file does not parse, no append gets through. */
  lemma {:induction false} MalformedBlocksPosts(store: Store, today: Day, bodies: seq<RollResult>)
    requires today in store && store[today].Malformed?
    requires |bodies| > 0
    ensures PostAll(store, today, bodies) == Failure(Unparsable)
  {
    if |bodies| > 1 {
      MalformedBlocksPosts(store, today, bodies[..|bodies| - 1]);
    }
  }

  /** Every day file that parses holds well-rolled records only. */
  predicate WellRolledStore(store: Store)
  {
    forall d :: d in store && store[d].Parsed? ==> WellRolled(store[d].records)
  }

  /** Start-up keeps the ledger well rolled: the file it may add is empty. */
  lemma StartUpWellRolled(store: Store, today: Day)
    requires WellRolledStore(store)
    ensures WellRolledStore(EnsureDayFile(store, today))
  {
  }

  /** Appending a well-rolled record keeps the ledger well rolled. */
  lemma PostWellRolled(store: Store, today: Day, body: RollResult)
    requires WellRolledStore(store)
    requires AllFaces(body.rolls, body.diceType.diceNum)
    ensures PostRolls(store, today, body).Success? ==> WellRolledStore(PostRolls(store, today, body).value)
  {
  }

  /** Whatever range is read from a well-rolled ledger is well rolled. */
  lemma {:induction false} RangeWellRolled(store: Store, start: Day, end: Day)
    requires WellRolledStore(store)
    ensures WellRolled(RangeRolls(store, start, end))
    decreases end - start
  {
    if end >= start {
      RangeWellRolled(store, start, end - 1);
      var before, day := RangeRolls(store, start, end - 1), ReadDay(store, end);
      assert WellRolled(day);
      assert forall k :: |before| <= k < |before + day| ==> (before + day)[k] == day[k - |before|];
    }
  }
}

=== FILE: naming.dfy ===
/** Day files are named dice_roll_log_<YYYY-MM-DD>.json, both where today's file is
    written and where a range query reads each day. */
module Naming {
  import opened Wrappers

  /** A calendar date as the ISO text shows it. */
  datatype Date = Date(year: int, month: int, day: int)

  /** Dates whose ISO text is plain YYYY-MM-DD. */
  predicate ValidDate(d: Date)
  {
    0 <= d.year <= 9999 && 1 <= d.month <= 12 && 1 <= d.day <= 31
  }

  function Pow10(width: nat): nat
  {
    if width == 0 then 1 else 10 * Pow10(width - 1)
  }

  function DigitChar(n: int): char
    requires 0 <= n <= 9
  {
    (48 + n) as char
  }

  /** `n` written in exactly `width` decimal digits, with leading zeros. */
  function Padded(n: nat, width: nat): (s: string)
    requires n < Pow10(width)
    ensures |s| == width
    ensures forall k :: 0 <= k < |s| ==> '0' <= s[k] <= '9'
  {
    if width == 0 then "" else Padded(n / 10, width - 1) + [DigitChar(n % 10)]
  }

  /** The value of a string of decimal digits, or None if some character is not a digit. */
  function ParseDigits(s: string): Option<nat>
  {
    if |s| == 0 then Some(0)
    else
      var last := s[|s| - 1];
      if '0' <= last <= '9' then
        match ParseDigits(s[..|s| - 1])
        case Some(v) => Some(10 * v + (last as int - 48))
        case None => None
      else None
  }

  lemma {:induction false} ParsePadded(n: nat, width: nat)
    requires n < Pow10(width)
    ensures ParseDigits(Padded(n, width)) == Some(n)
  {
    if width > 0 {
      var s := Padded(n, width);
      ParsePadded(n / 10, width - 1);
      assert s[..|s| - 1] == Padded(n / 10, width - 1);
    }
  }

  /** The moment / toISOString date text YYYY-MM-DD. */
  function IsoDate(d: Date): (s: string)
    requires ValidDate(d)
    ensures |s| == 10 && s[4] == '-' && s[7] == '-'
  {
    Padded(d.year, 4) + "-" + Padded(d.month, 2) + "-" + Padded(d.day, 2)
  }

  const Prefix: string := "dice_roll_log_"
  const Suffix: string := ".json"

  /** The name of the ledger file of one day. */
  function FileName(d: Date): (s: string)
    requires ValidDate(d)
    ensures |s| == |Prefix| + 10 + |Suffix|
    ensures s[..|Prefix|] == Prefix && s[|s| - |Suffix|..] == Suffix
  {
    Prefix + IsoDate(d) + Suffix
  }

  /** Reads the date back out of a day-file name. */
  function ParseFileName(s: string): Option<Date>
  {
    if |s| != |Prefix| + 10 + |Suffix| || s[..|Prefix|] != Prefix || s[|s| - |Suffix|..] != Suffix then None
    else
      var t := s[|Prefix|..|Prefix| + 10];
      if t[4] != '-' || t[7] != '-' then None
      else
        match (ParseDigits(t[..4]), ParseDigits(t[5..7]), ParseDigits(t[8..]))
        case (Some(y), Some(m), Some(d)) => Some(Date(y, m, d))
        case _ => None
  }

  /** The date can be recovered from its file name. */
  lemma FileNameRoundTrip(d: Date)
    requires ValidDate(d)
    ensures ParseFileName(FileName(d)) == Some(d)
  {
    var s := FileName(d);
    var t := IsoDate(d);
    assert s[|Prefix|..|Prefix| + 10] == t;
    assert t[..4] == Padded(d.year, 4);
    assert t[5..7] == Padded(d.month, 2);
    assert t[8..] == Padded(d.day, 2);
    ParsePadded(d.year, 4);
    ParsePadded(d.month, 2);
    ParsePadded(d.day, 2);
  }

  /** Distinct dates never share a file, so the ledger can be indexed by date. */
  lemma FileNameInjective(a: Date, b: Date)
    requires ValidDate(a) && ValidDate(b)
    ensures FileName(a) == FileName(b) <==> a == b
  {
    if FileName(a) == FileName(b) {
      FileNameRoundTrip(a);
      FileNameRoundTrip(b);
    }
  }
}

=== FILE: roller.dfy ===
/** The Roll button end to end: draw the dice, append the record to today's ledger
    file, and only then show it and ask the history to re-read. */
module Roller {
  import opened Wrappers
  import opened Catalog
  import opened Rolls
  import opened Ledger

  /** What one click can change: the ledger directory, the result the panel shows, and
      the flag whose toggling makes the history panels fetch again. */
  datatype Screen = Screen(store: Store, shown: Option<RollResult>, rerender: bool)

  /** Rolls, then appends. The append is awaited before the result is shown, so when it
      fails the click ends there: the record is neither logged nor shown, and the modelled
      state keeps what it had. */
  method RollAndPost(screen: Screen, today: Day, diceCount: ParsedInt, dice: Dice, modifier: int,
                     draws: seq<Fraction>, date: string)
    returns (r: RollResult, next: Screen, error: Option<PostError>)
    requires diceCount.Num? ==> |draws| >= diceCount.value
    requires forall k :: 0 <= k < |draws| ==> UnitInterval(draws[k])
    ensures r.diceType == dice && r.diceCount == diceCount && r.modifier == modifier && r.date == date
    ensures r.total == Sum(r.rolls) + modifier
    ensures dice.diceNum >= 1 ==> AllFaces(r.rolls, dice.diceNum)
    ensures diceCount.NaN? ==> r.rolls == []
    ensures diceCount.Num? ==> |r.rolls| == (if diceCount.value < 0 then 0 else diceCount.value)
    ensures forall k :: 0 <= k < |r.rolls| ==> r.rolls[k] == Draw(draws[k], dice.diceNum)
    ensures today in screen.store && screen.store[today].Malformed? ==> error == Some(Unparsable)
    ensures WellRolledStore(screen.store) && dice.diceNum >= 1 ==> WellRolledStore(next.store)
    ensures error.None? <==> today in screen.store && screen.store[today].Parsed?
    ensures today !in screen.store ==> error == Some(Unreadable)
    ensures error.Some? ==> next == screen
    ensures error.None? ==>
              && next.shown == Some(r)
              && next.rerender == !screen.rerender
              && next.store.Keys == screen.store.Keys
              && next.store[today] == Parsed(screen.store[today].records + [r])
              && forall d :: d in screen.store && d != today ==> next.store[d] == screen.store[d]
  {
    r := RollDice(diceCount, dice, modifier, draws, date);
    var posted := PostRolls(screen.store, today, r);
    if WellRolledStore(screen.store) && dice.diceNum >= 1 {
      PostWellRolled(screen.store, today, r);
    }
    match posted
    case Failure(e) =>
      next := screen;
      error := Some(e);
    case Success(store) =>
      next := Screen(store, Some(r), !screen.rerender);
      error := None;
  }
}

=== FILE: rolls.dfy ===
/** Building one roll record from a die, a count and a modifier, and normalising the
    count and modifier fields the user types. */
module Rolls {
  import opened Catalog

  /** A JavaScript number that is an integer or NaN, such as `parseInt` returns for a
      text field. */
  datatype ParsedInt = Num(value: int) | NaN

  /** JavaScript's `i < bound`: every comparison with NaN is false. */
  predicate Below(i: int, bound: ParsedInt)
  {
    bound.Num? && i < bound.value
  }

  /** One logged roll: every die value, and their sum plus the modifier. The count is
      whatever number the roll was asked for, NaN included. */
  datatype RollResult = RollResult(date: string, diceType: Dice, diceCount: ParsedInt,
                                   rolls: seq<int>, modifier: int, total: int)

  /** A draw of the random source, a number in [0, 1) written as the exact fraction num/den. */
  datatype Fraction = Fraction(num: nat, den: nat)

  predicate UnitInterval(u: Fraction)
  {
    u.num < u.den
  }

  /** Sum of a sequence, accumulated left to right. */
  function Sum(xs: seq<int>): int
  {
    if |xs| == 0 then 0 else Sum(xs[..|xs| - 1]) + xs[|xs| - 1]
  }

  /** Every record's dice lie on its own die's faces, as every roll made by `RollDice`
      for a die with at least one face does. */
  predicate WellRolled(records: seq<RollResult>)
  {
    forall k :: 0 <= k < |records| ==> AllFaces(records[k].rolls, records[k].diceType.diceNum)
  }

  lemma SumAppend(xs: seq<int>, x: int)
    ensures Sum(xs + [x]) == Sum(xs) + x
  {
    assert (xs + [x])[..|xs|] == xs;
  }

  /** Every value lies in [1, faces]. */
  predicate AllFaces(xs: seq<int>, faces: int)
  {
    forall k :: 0 <= k < |xs| ==> 1 <= xs[k] <= faces
  }

  lemma DivBelow(a: nat, b: nat, faces: nat)
    requires a < b && faces >= 1
    ensures a * faces / b < faces
  {
    var q := a * faces / b;
    assert a * faces < b * faces;
    assert q * b <= a * faces;
    assert q * b < faces * b;
  }

  /** floor(u * faces + 1): a die value from one draw of the random source. */
  function Draw(u: Fraction, faces: int): (v: int)
    requires UnitInterval(u)
    ensures faces >= 1 ==> 1 <= v <= faces
  {
    if faces >= 1 then
      DivBelow(u.num, u.den, faces);
      u.num * faces / u.den + 1
    else
      u.num * faces / u.den + 1
  }

  /** Rolls `diceCount` dice of the given kind, one draw each, and totals them with the
      modifier. The loop runs while `i < diceCount`, so a negative or NaN count draws no
      die. The record copies the die, count and modifier it was asked for. */
  method RollDice(diceCount: ParsedInt, dice: Dice, modifier: int, draws: seq<Fraction>, date: string)
    returns (r: RollResult)
    requires diceCount.Num? ==> |draws| >= diceCount.value
    requires forall k :: 0 <= k < |draws| ==> UnitInterval(draws[k])
    ensures diceCount.NaN? ==> r.rolls == [] && r.total == modifier
    ensures diceCount.Num? ==> |r.rolls| == (if diceCount.value < 0 then 0 else diceCount.value)
    ensures forall k :: 0 <= k < |r.rolls| ==> r.rolls[k] == Draw(draws[k], dice.diceNum)
    ensures dice.diceNum >= 1 ==> AllFaces(r.rolls, dice.diceNum)
    ensures r.total == Sum(r.rolls) + r.modifier
    ensures r.diceType == dice && r.diceCount == diceCount && r.modifier == modifier && r.date == date
  {
    var total := 0;
    var rolls: seq<int> := [];
    var i := 0;
    while Below(i, diceCount)
      invariant 0 <= i
      invariant diceCount.NaN? ==> i == 0
      invariant diceCount.Num? ==> (if diceCount.value < 0 then i == 0 else i <= diceCount.value)
      invariant |rolls| == i
      invariant forall k :: 0 <= k < i ==> rolls[k] == Draw(draws[k], dice.diceNum)
      invariant total == Sum(rolls)
      decreases if diceCount.Num? then diceCount.value - i else 0
    {
      var roll := Draw(draws[i], dice.diceNum);
      SumAppend(rolls, roll);
      total := total + roll;
      rolls := rolls + [roll];
      i := i + 1;
    }
    total := total + modifier;
    r := RollResult(date, dice, diceCount, rolls, modifier, total);
  }

  /** With every die in [1, faces], the sum lies between one and `faces` per die. */
  lemma {:induction false} SumBounds(xs: seq<int>, faces: int)
    requires AllFaces(xs, faces)
    ensures |xs| <= Sum(xs) <= |xs| * faces
  {
    if |xs| > 0 {
      var init := xs[..|xs| - 1];
      assert AllFaces(init, faces) by {
        forall k | 0 <= k < |init| ensures 1 <= init[k] <= faces {
          assert init[k] == xs[k];
        }
      }
      SumBounds(init, faces);
      assert |xs| * faces == |init| * faces + faces;
    }
  }

  /** The total of a well-formed record lies in [count + modifier, count * faces + modifier];
      nothing clamps it, so a large negative modifier gives a negative total. */
  lemma TotalRange(r: RollResult)
    requires AllFaces(r.rolls, r.diceType.diceNum)
    requires r.total == Sum(r.rolls) + r.modifier
    ensures |r.rolls| + r.modifier <= r.total <= |r.rolls| * r.diceType.diceNum + r.modifier
    ensures r.modifier < -|r.rolls| * r.diceType.diceNum ==> r.total < 0
  {
    SumBounds(r.rolls, r.diceType.diceNum);
  }

  /** The modifier field: NaN, and also 0, become 0; any other number is kept. */
  function Modifier(input: ParsedInt): (m: int)
    ensures input.Num? ==> m == input.value
    ensures input.NaN? ==> m == 0
  {
    match input
    case Num(v) => if v != 0 then v else 0
    case NaN => 0
  }

  /** The dice-count field as the source writes it: a number below 1 becomes 1, but the
      comparison `NaN < 1` is false, so NaN passes through unchanged. */
  function DiceCountAsWritten(input: ParsedInt): (c: ParsedInt)
    ensures c.Num? <==> input.Num?
    ensures c.Num? ==> c.value >= 1 && (input.value >= 1 ==> c.value == input.value)
    ensures input.Num? && input.value < 1 ==> c == Num(1)
  {
    match input
    case Num(v) => if v < 1 then Num(1) else Num(v)
    case NaN => NaN
  }

  /** The Roll button as written: the count field goes through the as-written guard,
      so an emptied field (NaN) reaches the roll, which then draws no die and logs the
      modifier alone as its total. */
  method RollFromFieldsAsWritten(countField: ParsedInt, modifierField: ParsedInt, dice: Dice,
                                 draws: seq<Fraction>, date: string)
    returns (r: RollResult)
    requires countField.Num? ==> |draws| >= DiceCountAsWritten(countField).value
    requires forall k :: 0 <= k < |draws| ==> UnitInterval(draws[k])
    ensures countField.NaN? ==> r.diceCount == NaN && r.rolls == [] && r.total == r.modifier
    ensures countField.Num? ==> 1 <= |r.rolls| && r.diceCount == Num(|r.rolls|)
    ensures r.total == Sum(r.rolls) + r.modifier
  {
    r := RollDice(DiceCountAsWritten(countField), dice, Modifier(modifierField), draws, date);
  }

  /** The dice-count field as intended: always at least one die; a parsed count of at
      least one is kept as typed. */
  function DiceCount(input: ParsedInt): (c: int)
    ensures c >= 1
    ensures input.Num? && input.value >= 1 ==> c == input.value
    ensures input.Num? && input.value < 1 ==> c == 1
  {
    match input
    case Num(v) => if v < 1 then 1 else v
    case NaN => 1
  }

  /** The Roll button: normalise both fields, then roll. Every roll made this way has
      at least one die, each in range, totalling the dice plus the normalised modifier. */
  method RollFromFields(countField: ParsedInt, modifierField: ParsedInt, dice: Dice,
                        draws: seq<Fraction>, date: string)
    returns (r: RollResult)
    requires dice.diceNum >= 1
    requires |draws| >= DiceCount(countField)
    requires forall k :: 0 <= k < |draws| ==> UnitInterval(draws[k])
    ensures 1 <= |r.rolls| && r.diceCount == Num(|r.rolls|)
    ensures countField.Num? && countField.value >= 1 ==> |r.rolls| == countField.value
    ensures AllFaces(r.rolls, dice.diceNum)
    ensures r.total == Sum(r.rolls) + r.modifier
    ensures modifierField.Num? ==> r.modifier == modifierField.value
    ensures modifierField.NaN? ==> r.modifier == 0
    ensures r.diceType == dice
  {
    r := RollDice(Num(DiceCount(countField)), dice, Modifier(modifierField), draws, date);
  }
}

=== FILE: tiers.dfy ===
/** The colour a rolled value is shown in, and how a roll is laid out on screen. */
module Tiers {
  import opened Catalog
  import opened Rolls
  import opened Wrappers

  /** The result colours: low, middle and high thirds of the face range, the natural-20
      highlight, and no colour for the modifier cell. */
  datatype Tier = Red | Yellow | Green | Rainbow | NoColor

  /** Whether a value is a single die ("normal") or a sum with the modifier ("total"). */
  datatype FieldType = Normal | Total

  /** The highest face of the die named "d20", rolled as a single die. */
  predicate NaturalMax(rollNumber: int, dice: Dice, fieldType: FieldType)
  {
    dice.diceName == "d20" && fieldType == Normal && rollNumber == dice.diceNum
  }

  /** Splits the faces into thirds at diceNum / 3 and diceNum / 3 + diceNum / 3, each
      boundary belonging to the lower tier; a natural maximum on "d20" overrides. The
      thresholds are exact rationals, as the source's division is for these dice. */
  function GetDiceRangeColor(rollNumber: int, dice: Dice, fieldType: FieldType): (c: Tier)
    ensures c != NoColor
    ensures c == Rainbow <==> NaturalMax(rollNumber, dice, fieldType)
    ensures c == Red <==> !NaturalMax(rollNumber, dice, fieldType) && 3 * rollNumber <= dice.diceNum
    ensures c == Yellow <==>
              !NaturalMax(rollNumber, dice, fieldType) && dice.diceNum < 3 * rollNumber <= 2 * dice.diceNum
    ensures c == Green <==>
              !NaturalMax(rollNumber, dice, fieldType) && 3 * rollNumber > dice.diceNum && 3 * rollNumber > 2 * dice.diceNum
  {
    var badRollBoundary := dice.diceNum as real / 3.0;
    var midRollBoundary := badRollBoundary + dice.diceNum as real / 3.0;
    if NaturalMax(rollNumber, dice, fieldType) then Rainbow
    else if rollNumber as real <= badRollBoundary then Red
    else if rollNumber as real <= midRollBoundary then Yellow
    else Green
  }

  /** A single roll of the catalog's d20: 1-6 red, 7-13 yellow, 14-19 green, 20 rainbow;
      a total of 20 on the same die is only green. */
  lemma D20Tiers(v: int)
    requires 1 <= v <= 20
    ensures 1 <= v <= 6 ==> GetDiceRangeColor(v, DefaultDice, Normal) == Red
    ensures 7 <= v <= 13 ==> GetDiceRangeColor(v, DefaultDice, Normal) == Yellow
    ensures 14 <= v <= 19 ==> GetDiceRangeColor(v, DefaultDice, Normal) == Green
    ensures v == 20 ==> GetDiceRangeColor(v, DefaultDice, Normal) == Rainbow
    ensures GetDiceRangeColor(20, DefaultDice, Total) == Green
  {
  }

  /** Only the die named "d20" has the override: a d100 rolling 100 is green. */
  lemma D100MaxIsGreen()
    ensures GetDiceRangeColor(100, Dice(100, "d100", Individual), Normal) == Green
  {
  }

  /** Order of the non-highlight tiers. */
  function Rank(c: Tier): int
  {
    match c
    case Red => 0
    case Yellow => 1
    case Green => 2
    case _ => 3
  }

  /** Apart from the highlight, a larger value never gets a lower tier, and every value
      below one gets red. */
  lemma TiersMonotone(v: int, w: int, dice: Dice, fieldType: FieldType)
    requires v <= w
    requires !NaturalMax(v, dice, fieldType) && !NaturalMax(w, dice, fieldType)
    requires dice.diceNum >= 0
    ensures Rank(GetDiceRangeColor(v, dice, fieldType)) <= Rank(GetDiceRangeColor(w, dice, fieldType))
    ensures v < 1 ==> GetDiceRangeColor(v, dice, fieldType) == Red
  {
  }

  /** One coloured number on screen. */
  datatype Cell = Cell(value: int, color: Tier)

  /** One line of an individually displayed roll: die + modifier = total. */
  datatype Line = Line(roll: Cell, modifier: Cell, total: Cell)

  /** The roll panel: nothing yet, one line per die, or all dice + modifier = total. */
  datatype Panel = Empty | Lines(lines: seq<Line>) | Summed(rolls: seq<Cell>, modifier: Cell, total: Cell)

  /** One line per die, each die added to the modifier on its own. */
  function IndividualResults(r: RollResult): (lines: seq<Line>)
    ensures |lines| == |r.rolls|
    ensures forall i :: 0 <= i < |lines| ==>
              && lines[i].roll.value == r.rolls[i]
              && lines[i].total.value == r.rolls[i] + r.modifier
              && lines[i].modifier == Cell(r.modifier, NoColor)
              && (lines[i].roll.color == Rainbow <==> r.diceType.diceName == "d20" && r.rolls[i] == r.diceType.diceNum)
              && lines[i].roll.color == GetDiceRangeColor(r.rolls[i], r.diceType, Normal)
              && lines[i].total.color == GetDiceRangeColor(r.rolls[i] + r.modifier, r.diceType, Total)
              && lines[i].total.color !in {Rainbow, NoColor}
  {
    seq(|r.rolls|, i requires 0 <= i < |r.rolls| =>
      Line(Cell(r.rolls[i], GetDiceRangeColor(r.rolls[i], r.diceType, Normal)),
           Cell(r.modifier, NoColor),
           Cell(r.rolls[i] + r.modifier, GetDiceRangeColor(r.rolls[i] + r.modifier, r.diceType, Total))))
  }

  /** Every die, then the modifier, then the record's total. */
  function SummedResults(r: RollResult): (p: Panel)
    ensures p.Summed?
    ensures |p.rolls| == |r.rolls|
    ensures forall i :: 0 <= i < |p.rolls| ==>
              && p.rolls[i].value == r.rolls[i]
              && p.rolls[i].color == GetDiceRangeColor(r.rolls[i], r.diceType, Normal)
              && (p.rolls[i].color == Rainbow <==> r.diceType.diceName == "d20" && r.rolls[i] == r.diceType.diceNum)
    ensures p.modifier == Cell(r.modifier, NoColor)
    ensures p.total.value == r.total && p.total.color == GetDiceRangeColor(r.total, r.diceType, Total)
    ensures p.total.color !in {Rainbow, NoColor}
  {
    Summed(seq(|r.rolls|, i requires 0 <= i < |r.rolls| =>
                 Cell(r.rolls[i], GetDiceRangeColor(r.rolls[i], r.diceType, Normal))),
           Cell(r.modifier, NoColor),
           Cell(r.total, GetDiceRangeColor(r.total, r.diceType, Total)))
  }

  /** Individually displayed dice get one line per die (no line at all when the record
      holds no die); every other die gets the summed layout; before the first roll the
      panel is empty. */
  function ResultsPanel(latest: Option<RollResult>): (p: Panel)
    ensures latest.None? <==> p.Empty?
    ensures latest.Some? ==> (p.Lines? <==> latest.value.diceType.display == Individual)
    ensures p.Lines? ==> |p.lines| == |latest.value.rolls|
    ensures p.Summed? ==> p.total.value == latest.value.total
    ensures latest.Some? && p.Lines? ==> p.lines == IndividualResults(latest.value)
    ensures latest.Some? && !p.Lines? ==> p == SummedResults(latest.value)
  {
    match latest
    case None => Empty
    case Some(r) => if r.diceType.display == Individual then Lines(IndividualResults(r)) else SummedResults(r)
  }
}

=== FILE: wrappers.dfy ===
/** Failure-carrying results shared by the other modules. */
module Wrappers {

  /** A value that may be missing. */
  datatype Option<+T> = None | Some(value: T)

  /** The outcome of an operation that can fail with an error of type E. */
  datatype Result<+R, +E> = Success(value: R) | Failure(error: E)
}
